=== FILE: README.md ===
# CODE2PDF converter, modelled in Dafny

CODE2PDF turns every source file of a project into a PDF. `main` does five things:

1. It reads three paths and strips their quotes.
2. It makes a timestamped output directory with a `logs/<timestamp>.log` file.
3. It walks the project and keeps every file whose name ends with one of the
   configured `file_types` keys.
4. It converts the kept files concurrently.
5. It writes start and finish markers around the batch in the log.

Each conversion (`convert_to_pdf`) computes a header banner. The banner shows
the file name, the class name (the `splitext` stem), the file type (the text
after the last '.' of the whole path, upper-cased) and an explanation. The
explanation is the label configured under the lower-cased file type, or
"Code File" when there is none. The PDF is written as `<stem>.pdf` in the
output directory. Any failure is caught and logged under a lock as one
"Error processing file <path>: ..." entry followed by the traceback. A failing
file never stops the batch.

Modules:

- `Text` models the Python string operations behind the converter: the
  `endswith`, `split` and `strip` it calls, the `rfind` that `basename` and
  `splitext` use, and the `find` that the header parser `CutAt` uses.
- `Ascii` models upper- and lower-casing.
- `Paths` models POSIX `basename`, `join` and `splitext`, and the quote
  stripping of `format_path`.
- `Converter` models the per-file computations and the header banner.
- `Discovery` models the walk filter and the task list.
- `Batch` models the failure-isolating conversion, the batch and the whole
  run.
- `Seqs` holds generic facts about mapping over sequences.
- `Wrappers` holds `Option`.

Three behaviours of the code that a reader might not expect. The model keeps
each one as written:

- The two uses of the configured keys treat case differently. The label
  lookup (line 49) upper-cases the file type and lower-cases it again, so it
  ignores the case of the path. The discovery filter (line 114) is a raw,
  case-sensitive `endswith`, so "a.PY" is not selected by the key "py"
  (`Discovery.SuffixNeedsNoDot`). The filter also needs no '.' before the
  key: "happy" is selected by "py".
- The file type is taken from the whole path, not from the file name. A '.'
  in a directory name therefore leaks into it
  (`Converter.DirectoryDotLeaksIntoFileType`).
- The PDF is named after the `splitext` stem. Two sources with the same stem
  write the same output path, whatever directories they come from
  (`Converter.OutputPathsCollideIffSameClassName`).

## Model

| member | source | states |
|---|---|---|
| Text.RFind | converter.py:46 | `rfind` gives -1 exactly when the character is absent; otherwise it gives an index holding it with no occurrence after it |
| Text.Split | converter.py:48 | `split` on one character gives at least one part, none containing the separator, and joining the parts with the separator gives the input back |
| Text.LastPartFollowsLastSeparator | converter.py:48 | the last part of `split(c)` is the text after the last `c`, and is the whole string when `c` is absent |
| Text.Strip | converter.py:82 | `strip(c)` cuts only runs of `c` from the two ends, and the result neither starts nor ends with `c` |
| Text.StripUnique | converter.py:82 | any cut of runs of `c` from both ends that leaves no `c` at either end is the one `strip` makes |
| Ascii.Upper | converter.py:48 | `upper` keeps the length and upper-cases each letter, leaving other characters alone |
| Ascii.Lower | converter.py:49 | `lower` keeps the length and lower-cases each capital, leaving other characters alone |
| Ascii.LowerOfUpper | converter.py:48-49 | lower-casing the upper-cased file type equals lower-casing the original text |
| Ascii.LowerFixesExactlyNoUpper | converter.py:49 | lower-casing leaves a string unchanged exactly when it has no capitals |
| Paths.Basename | converter.py:46 | `basename` is a suffix of the path, holds no separator, and follows a separator unless it is the whole path |
| Paths.Join | converter.py:69 | `join` returns an absolute second part unchanged; otherwise it extends the first part, ends with the second, and puts at most one character between them, a separator whenever the first part is non-empty; nothing is put between them exactly when the first part is empty or already ends with a separator |
| Paths.JoinInside | converter.py:69 | joining a relative part onto a directory gives a path inside the directory, exactly one `Gap` (the separator `join` adds, if any) after it |
| Paths.BasenameOfJoin | converter.py:69 | the basename of a directory joined with a separator-free name is that name |
| Paths.SplitExt | converter.py:47 | `splitext` splits the path into stem and extension, whose concatenation is the path; the extension is empty, or it is one '.' and then text with no '.' or separator |
| Paths.SplitExtCutsIffInnerDot | converter.py:47 | a file name loses an extension exactly when it has a '.' with some other character than '.' before it, so leading dots do not start an extension |
| Paths.StripQuotes | converter.py:82 | quote stripping first cuts the runs of '"' from both ends, leaving no '"' at either end of the intermediate text, then cuts the runs of "'" from that text; the result has no "'" at either end |
| Paths.StripQuotesKeepsInnerDoubleQuotes | converter.py:82 | the two strips run in order, so `'"a"'` becomes `"a"` |
| Converter.FileName | converter.py:46 | the file name ends the path, holds no separator, and is either the whole path or follows a separator |
| Converter.ClassName | converter.py:46-47 | the class name is a prefix of the file name and holds no separator |
| Converter.ClassNameIsStem | converter.py:46-47 | the class name is the whole file name exactly when the name has no inner '.'; otherwise it is the name up to its last '.' |
| Converter.FileType | converter.py:48 | the file type is the upper-cased text after the last '.' of the whole path, or the whole upper-cased path when it has no '.'; it holds no '.' |
| Converter.DirectoryDotLeaksIntoFileType | converter.py:48 | for a directory with a '.' and a file name without one, the file type spans a separator and ends with the upper-cased file name |
| Converter.Explanation | converter.py:49 | the explanation is "Code File" or the label of a key without capitals |
| Converter.ExplanationOfUnknownExtension | converter.py:48-49 | a path with a '.' whose lower-cased form ends with '.' followed by no configured key without a '.' gets exactly "Code File" |
| Converter.DottedKeyNeverConsulted | converter.py:48-49 | a configured key containing '.' never equals the lower-cased file type, so the label lookup never reaches it |
| Converter.KeyReachableIffNoUpper | converter.py:48-49 | a key equals the lower-cased file type of some path exactly when it has no capitals and no '.'; other keys select files but never label them |
| Converter.LookupKeyIsPlain | converter.py:48-49 | the text the lookup uses has neither capitals nor '.' |
| Converter.PlainKeyIsItsOwnLookup | converter.py:48-49 | a key without capitals or '.', taken as a path, looks itself up |
| Converter.ExplanationWithoutDot | converter.py:48-49 | a path without a '.' gets the label stored under the whole lower-cased path, and exactly "Code File" when there is none |
| Converter.ExplanationOfKnownExtension | converter.py:48-49 | a path whose lower-cased form ends with '.' and a key without capitals and without a '.' gets that key's label, whatever the case of the path |
| Converter.PdfFileName | converter.py:68 | the PDF name ends with ".pdf", holds no separator, and is the class name before the suffix |
| Converter.PdfOutputPath | converter.py:68-69 | the output path lies inside the output directory, its basename is the PDF name, and it is exactly the directory, the separator `join` adds, and that name |
| Converter.OutputPathsCollideIffSameClassName | converter.py:68-69 | two sources get the same output path exactly when their class names agree |
| Converter.BannerOf | converter.py:46-49 | the banner's file name ends the path with no separator and is the whole path or follows a separator; its class name is the stem and begins the file name; its file type is the upper-cased text after the path's last '.'; its explanation is the label looked up for that file type, "Code File" or a configured label |
| Converter.Header | converter.py:51 | the header opens with the grey div, shows the file name right after it, and ends with the bracketed explanation and the closing tag |
| Converter.HeaderReadsBack | converter.py:51 | the header banner can be parsed back into its four values when the file name and class name hold no '\|' and the file type no '[' |
| Converter.BannerReadsBack | converter.py:46-51 | the banner computed for a path free of '\|' and '[' is read back from its header |
| Discovery.Selected | converter.py:114 | the filter is a raw `endswith` against the tuple of keys: a name is selected when some key ends it, with no '.' needed and case mattering |
| Discovery.SelectedIffSomeEndingIsKey | converter.py:114 | a file name is selected exactly when some ending of it is a configured key |
| Discovery.Discover | converter.py:109-116 | the task list has at most one task per walked file, and every task carries the run's output directory, log file and configuration |
| Discovery.DiscoverIff | converter.py:109-116 | a task is discovered exactly when it is built from a walked file whose name ends with some configured key |
| Discovery.DiscoveredFromSomeFile | converter.py:109-116 | every discovered task is built from a selected file of some walked directory |
| Discovery.EverySelectedFileDiscovered | converter.py:109-116 | the task of every selected file of a walked directory is discovered |
| Discovery.DiscoveredNamesAreSelected | converter.py:112-116 | each discovered task carries the run's output directory, log file and configuration, and its basename ends with a key |
| Discovery.CollectTasks | converter.py:109-116 | the nested walk loops build the task list in walk order |
| Discovery.SuffixNeedsNoDot | converter.py:114 | the suffix test needs no '.' before the key and is case-sensitive |
| Batch.FirstFault | converter.py:37-73 | the fault returned is that of a step that raised with every earlier step completed, and there is none exactly when every step completes |
| Batch.ErrorEntry | converter.py:78-79 | an error entry begins with "Error processing file " and the source path |
| Batch.ConvertToPdf | converter.py:36-79 | on success, the PDF is written at the output path, other PDFs are untouched and the log is unchanged; on a failure of a modelled step, the model writes nothing and appends exactly one entry naming the path |
| Batch.RunTasks | converter.py:118-119 | running the tasks keeps the existing log as a prefix and removes no PDF |
| Batch.RunLogIsErrors | converter.py:75-79 | running tasks appends exactly their error entries, in task order, to the log |
| Batch.RunPdfPaths | converter.py:67-73 | running tasks writes at exactly the output paths of the succeeding tasks |
| Batch.ErrorsReportFailures | converter.py:75-79 | every error entry names a failing task; there is at most one per task, and one for each task when all fail |
| Batch.EveryTaskAccountedFor | converter.py:36-79 | after the batch, each task has either its PDF or an error entry naming its path |
| Batch.ScheduleIrrelevant | converter.py:118-119 | any order of the same tasks keeps the old log as a prefix, gives the same entries up to order and writes the same paths |
| Batch.Run | converter.py:99-122 | the run's log starts with the start marker and ends with the finish marker |
| Batch.RunShape | converter.py:99-122 | the run's log is the start marker, the error entries and the finish marker; the PDFs sit exactly at the succeeding tasks' output paths |
| Batch.RunAccountsForEveryTask | converter.py:109-122 | every file the run selects ends with a PDF or an error entry naming it |
| Batch.RunDir | converter.py:99-100 | the run directory ends with the timestamp and, for a relative timestamp, lies directly in the output root |
| Batch.LogFile | converter.py:101 | the log file ends with `<timestamp>.log`; for a relative timestamp it is the run directory, the separator `join` adds, and exactly `logs/<timestamp>.log` |
| Batch.RunPathsFollowTimestamp | converter.py:99-101 | the run directory is named after the timestamp and sits directly in the output root; the log file is `<timestamp>.log` in the `logs` directory directly in the run directory |
| Batch.RunPdfsInsideOutputDir | converter.py:68-116 | every PDF of the run sits directly in the run's timestamped directory, under a name ending with ".pdf" |
| Seqs.FlatMapPermutation | converter.py:118-119 | concatenating per-element results gives the same multiset for any order of the elements |
| Seqs.HarvestPermutation | converter.py:118-119 | collecting per-element sets gives the same set for any order of the elements |

## Left out

- `install_wkhtmltopdf` and `check_wkhtmltopdf` (lines 17-34) are not modelled. They download and run an installer and rewrite the configuration file. These are network, process and file I/O effects.
- Reading the source, the lexer lookup, highlighting and rendering (lines 38-43, 57, 71-73) are not modelled as computations. They come from a `Fate` per source path: each step either succeeds or raises a fault with a message and a traceback. This includes the lexer error for an unknown extension, and `pdfkit.configuration` (line 72) raising when no wkhtmltopdf binary exists at the configured path. Line 71 itself cannot fail: `check_wkhtmltopdf` (lines 27-33) sets `pdfkit_path` whenever it is unset, before any task runs.
- The HTML body, the style block and the footer's placement (lines 52-65) are not modelled. They only feed the renderer. The PDF is represented by its source path and header.
- The thread pool and the lock (lines 15, 76, 118-119) are not modelled as concurrency. The batch runs the tasks one at a time. `Batch.ScheduleIrrelevant` shows that the order cannot change the set of entries or the set of written paths.
- Batch.RunTasks: the order of entries within the log, and which PDF content wins when two tasks share an output path, are fixed by the schedule. Under threads both depend on timing.
- `os.walk` order, `os.path.normpath`, `os.makedirs`, `input`, `json.load` and the clock are not modelled. The walk, the timestamp and the two marker times are inputs. The output root is taken as already formatted.
- Paths follow POSIX `posixpath`. Windows `ntpath` semantics are not modelled: backslash separators, drive letters, and `splitext` with two separators.
- Case mapping covers ASCII letters only. Unicode case mapping, such as 'ß' upper-casing to "SS", is not modelled.
- The model assumes `config["file_types"]` is present. The `KeyError` raised before the batch when it is missing is not modelled.
- Batch.ConvertToPdf: a failure is taken to leave no PDF behind, and the error log write is taken to succeed. Neither is guaranteed by the code. `pdfkit.from_string` (line 73) can raise after wkhtmltopdf has already written the file, possibly over another task's PDF with the same stem. If the log write in the handler (lines 77-79) raises, the exception leaves `convert_to_pdf`, and nobody reads it because the result of `executor.map` (line 119) is discarded. Such a task leaves neither a PDF nor an entry. `Batch.RunPdfPaths`, `Batch.EveryTaskAccountedFor` and `Batch.RunAccountsForEveryTask` rest on both assumptions.
- Batch.ErrorEntry: `str(e)` and `traceback.format_exc()` are opaque texts carried by the fault, not computed from the exception.

=== FILE: ascii.dfy ===
/**
 ASCII case mapping. Python's `str.upper` and `str.lower` map the whole of
 Unicode; this model restricts both to the 26 ASCII letters and leaves every
 other character unchanged.
 */
module Ascii {

  predicate IsLower(c: char) { 'a' <= c <= 'z' }

  predicate IsUpper(c: char) { 'A' <= c <= 'Z' }

  /** True when `s` has no upper-case ASCII letter. */
  predicate NoUpper(s: string) {
    forall i :: 0 <= i < |s| ==> !IsUpper(s[i])
  }

  function UpperChar(c: char): (u: char)
    ensures !IsLower(u)
    ensures IsLower(c) ==> IsUpper(u) && u as int + 32 == c as int
    ensures !IsLower(c) ==> u == c
  {
    if IsLower(c) then (c as int - 32) as char else c
  }

  function LowerChar(c: char): (l: char)
    ensures !IsUpper(l)
    ensures IsUpper(c) ==> IsLower(l) && l as int == c as int + 32
    ensures !IsUpper(c) ==> l == c
  {
    if IsUpper(c) then (c as int + 32) as char else c
  }

  /** `str.upper` restricted to ASCII: the same length, letter by letter. */
  function Upper(s: string): (r: string)
    ensures |r| == |s|
    ensures forall i :: 0 <= i < |s| ==> r[i] == UpperChar(s[i])
  {
    seq(|s|, i requires 0 <= i < |s| => UpperChar(s[i]))
  }

  /** `str.lower` restricted to ASCII: the same length, letter by letter. */
  function Lower(s: string): (r: string)
    ensures |r| == |s|
    ensures forall i :: 0 <= i < |s| ==> r[i] == LowerChar(s[i])
  {
    seq(|s|, i requires 0 <= i < |s| => LowerChar(s[i]))
  }

  /** Upper-casing touches only letters: a non-letter occurs in `Upper(s)`
      exactly where it occurs in `s`. */
  lemma UpperKeepsNonLetters(s: string, c: char)
    requires !IsLower(c) && !IsUpper(c)
    ensures c in Upper(s) <==> c in s
  {
    var u := Upper(s);
    if c in s {
      var i :| 0 <= i < |s| && s[i] == c;
      assert u[i] == c;
    }
    if c in u {
      var i :| 0 <= i < |u| && u[i] == c;
      assert s[i] == c;
    }
  }

  /** Lower-casing touches only letters: a non-letter occurs in `Lower(s)`
      exactly where it occurs in `s`. */
  lemma LowerKeepsNonLetters(s: string, c: char)
    requires !IsLower(c) && !IsUpper(c)
    ensures c in Lower(s) <==> c in s
  {
    var l := Lower(s);
    if c in s {
      var i :| 0 <= i < |s| && s[i] == c;
      assert l[i] == c;
    }
    if c in l {
      var i :| 0 <= i < |l| && l[i] == c;
      assert s[i] == c;
    }
  }

  /** Upper-casing commutes with taking a suffix. */
  lemma UpperOfSuffix(s: string, i: nat)
    requires i <= |s|
    ensures Upper(s)[i..] == Upper(s[i..])
  {
    var a, b := Upper(s)[i..], Upper(s[i..]);
    assert forall k :: 0 <= k < |a| ==> a[k] == b[k];
  }

  /** Lower-casing after upper-casing is the same as lower-casing alone. */
  lemma LowerOfUpper(s: string)
    ensures Lower(Upper(s)) == Lower(s)
  {
    var a, b := Lower(Upper(s)), Lower(s);
    assert forall i :: 0 <= i < |s| ==> a[i] == b[i];
  }

  /** Lower-casing is the identity exactly on strings with no capitals. */
  lemma LowerFixesExactlyNoUpper(s: string)
    ensures Lower(s) == s <==> NoUpper(s)
  {
    if Lower(s) == s {
      forall i | 0 <= i < |s| ensures !IsUpper(s[i]) {
        assert Lower(s)[i] == s[i];
      }
    }
    if NoUpper(s) {
      assert forall i :: 0 <= i < |s| ==> Lower(s)[i] == s[i];
    }
  }

  /** The result of lower-casing never contains a capital. */
  lemma LowerHasNoUpper(s: string)
    ensures NoUpper(Lower(s))
  {
  }
}

=== FILE: batch.dfy ===
/**
 The conversion task (`convert_to_pdf`) and the run of a whole batch in
 `main`. Reading, lexer lookup, highlighting and rendering are external; each
 task's outcome for them is a `Fate` supplied from outside. The worker pool
 is modelled by running the tasks one after another in the order given; the
 lemmas at the end show that the log's entries and the set of written PDFs do
 not depend on that order.
 */
module Batch {
  import opened Wrappers
  import opened Text
  import opened Paths
  import opened Converter
  import opened Discovery
  import opened Seqs

  /** An exception raised by an external step: `str(e)` and the formatted
      traceback. */
  datatype Fault = Fault(message: string, trace: string)

  /** The outcome of one external step. */
  datatype Step = Done | Raised(fault: Fault)

  /** The outcomes of a task's external steps, in the order the task runs
      them: open-and-read, lexer lookup, highlighting, rendering. */
  datatype Fate = Fate(read: Step, lex: Step, highlight: Step, render: Step)

  /** The steps of a fate in the order the task runs them. */
  function Steps(f: Fate): seq<Step> {
    [f.read, f.lex, f.highlight, f.render]
  }

  /** Step `i` raised `fault` and every step before it completed. */
  predicate RaisedFirstAt(f: Fate, i: int, fault: Fault) {
    && 0 <= i < |Steps(f)|
    && Steps(f)[i] == Raised(fault)
    && forall j :: 0 <= j < i ==> Steps(f)[j].Done?
  }

  /** The exception that ends the task, if any: the fault of the first step
      that raised, all steps before it having completed. */
  function FirstFault(f: Fate): (r: Option<Fault>)
    ensures r.None? <==> forall i :: 0 <= i < |Steps(f)| ==> Steps(f)[i].Done?
    ensures r.Some? ==> exists i :: RaisedFirstAt(f, i, r.value)
  {
    if f.read.Raised? then
      assert RaisedFirstAt(f, 0, f.read.fault);
      Some(f.read.fault)
    else if f.lex.Raised? then
      assert RaisedFirstAt(f, 1, f.lex.fault);
      Some(f.lex.fault)
    else if f.highlight.Raised? then
      assert RaisedFirstAt(f, 2, f.highlight.fault);
      Some(f.highlight.fault)
    else if f.render.Raised? then
      assert RaisedFirstAt(f, 3, f.render.fault);
      Some(f.render.fault)
    else None
  }

  predicate Succeeds(f: Fate) {
    FirstFault(f).None?
  }

  /** A rendered PDF: the source it was made from and its header banner. */
  datatype Pdf = Pdf(source: string, header: string)

  /** What a run has produced so far: the log's entries and the PDFs on disk
      by output path. */
  datatype RunState = RunState(log: seq<string>, pdfs: map<string, Pdf>)

  const ErrorPrefix: string := "Error processing file "

  /** The entry a failing task appends under the lock: the message line and
      the traceback, as one unit. */
  function ErrorEntry(path: string, fault: Fault): (r: string)
    ensures IsErrorEntryFor(r, path)
  {
    ErrorPrefix + path + ": " + fault.message + "\n" + fault.trace + "\n"
  }

  /** The entry begins with the error prefix followed by `path`. */
  predicate IsErrorEntryFor(entry: string, path: string) {
    |ErrorPrefix + path| <= |entry| && entry[..|ErrorPrefix + path|] == ErrorPrefix + path
  }

  function OutputOf(t: Task): string {
    PdfOutputPath(t.outputDir, t.path)
  }

  function PdfOf(t: Task): Pdf {
    Pdf(t.path, Header(BannerOf(t.path, t.config)))
  }

  /** One task. It always returns a state: on success the PDF is written at
      the output path and the log is untouched; on any failure exactly one
      error entry naming the source path is appended and nothing is written. */
  function ConvertToPdf(t: Task, fate: Fate, st: RunState): (r: RunState)
    ensures Succeeds(fate) ==> r.log == st.log && OutputOf(t) in r.pdfs && r.pdfs[OutputOf(t)] == PdfOf(t)
    ensures Succeeds(fate) ==> forall o :: o in st.pdfs && o != OutputOf(t) ==> o in r.pdfs && r.pdfs[o] == st.pdfs[o]
    ensures !Succeeds(fate) ==> r.pdfs == st.pdfs && |r.log| == |st.log| + 1 && r.log[..|st.log|] == st.log
    ensures !Succeeds(fate) ==> IsErrorEntryFor(r.log[|st.log|], t.path)
  {
    match FirstFault(fate)
    case None => Write(st, OutputOf(t), PdfOf(t))
    case Some(fault) => Append(st, ErrorEntry(t.path, fault))
  }

  /** Writes `pdf` at `out`, replacing what was there; the log is untouched. */
  function Write(st: RunState, out: string, pdf: Pdf): (r: RunState)
    ensures r.log == st.log && out in r.pdfs && r.pdfs[out] == pdf
    ensures forall o :: o in st.pdfs && o != out ==> o in r.pdfs && r.pdfs[o] == st.pdfs[o]
  {
    RunState(st.log, st.pdfs[out := pdf])
  }

  /** Appends one entry to the log; nothing is written. */
  function Append(st: RunState, entry: string): (r: RunState)
    ensures r.pdfs == st.pdfs && |r.log| == |st.log| + 1 && r.log[..|st.log|] == st.log
    ensures r.log[|st.log|] == entry
  {
    RunState(st.log + [entry], st.pdfs)
  }

  /** Runs the tasks one after another. The log only grows and no PDF is
      ever removed. */
  function RunTasks(tasks: seq<Task>, fates: string -> Fate, st: RunState): (r: RunState)
    ensures |st.log| <= |r.log| && r.log[..|st.log|] == st.log
    ensures st.pdfs.Keys <= r.pdfs.Keys
    decreases |tasks|
  {
    if tasks == [] then st
    else RunTasks(tasks[1..], fates, ConvertToPdf(tasks[0], fates(tasks[0].path), st))
  }

  /** The entry `t` leaves in the log: none when it succeeds, one error entry
      naming its path when it fails. */
  function EntryOf(t: Task, fates: string -> Fate): (r: seq<string>)
    ensures Succeeds(fates(t.path)) <==> r == []
    ensures |r| <= 1
    ensures forall e :: e in r ==> IsErrorEntryFor(e, t.path)
  {
    match FirstFault(fates(t.path))
    case None => []
    case Some(fault) => [ErrorEntry(t.path, fault)]
  }

  /** The error entries the tasks produce, in task order. */
  function Errors(tasks: seq<Task>, fates: string -> Fate): seq<string> {
    FlatMap(tasks, t => EntryOf(t, fates))
  }

  /** The output path `t` writes: none when it fails. */
  function WrittenBy(t: Task, fates: string -> Fate): set<string> {
    if Succeeds(fates(t.path)) then {OutputOf(t)} else {}
  }

  /** The output paths of the tasks that succeed. */
  function Written(tasks: seq<Task>, fates: string -> Fate): set<string> {
    Harvest(tasks, t => WrittenBy(t, fates))
  }

  /** Running the tasks appends exactly their error entries, in order, to the
      log. */
  lemma {:induction false} RunLogIsErrors(tasks: seq<Task>, fates: string -> Fate, st: RunState)
    ensures RunTasks(tasks, fates, st).log == st.log + Errors(tasks, fates)
    decreases |tasks|
  {
    if tasks != [] {
      var t := tasks[0];
      var st' := ConvertToPdf(t, fates(t.path), st);
      RunLogIsErrors(tasks[1..], fates, st');
      ConvertLogsEntry(t, fates, st);
      assert Errors(tasks, fates) == EntryOf(t, fates) + Errors(tasks[1..], fates);
      Regroup(st.log, EntryOf(t, fates), Errors(tasks[1..], fates));
    }
  }

  /** One task adds its own entry, if any, to the log. */
  lemma ConvertLogsEntry(t: Task, fates: string -> Fate, st: RunState)
    ensures ConvertToPdf(t, fates(t.path), st).log == st.log + EntryOf(t, fates)
  {
  }

  /** Every error entry of a batch names a failing task of the batch, there is
      at most one per task, and one for each task when all of them fail. */
  lemma ErrorsReportFailures(tasks: seq<Task>, fates: string -> Fate)
    ensures forall e :: e in Errors(tasks, fates) ==>
              exists t :: t in tasks && !Succeeds(fates(t.path)) && IsErrorEntryFor(e, t.path)
    ensures |Errors(tasks, fates)| <= |tasks|
    ensures (forall t :: t in tasks ==> !Succeeds(fates(t.path))) ==> |Errors(tasks, fates)| == |tasks|
  {
    var f := t => EntryOf(t, fates);
    forall e | e in Errors(tasks, fates)
      ensures exists t :: t in tasks && !Succeeds(fates(t.path)) && IsErrorEntryFor(e, t.path)
    {
      var k :| 0 <= k < |FlatMap(tasks, f)| && FlatMap(tasks, f)[k] == e;
      var t :| t in tasks && e in f(t);
    }
    FlatMapLength(tasks, f);
  }

  /** Running the tasks writes a PDF at the output path of each task that
      succeeds, and nowhere else. */
  lemma {:induction false} RunPdfPaths(tasks: seq<Task>, fates: string -> Fate, st: RunState)
    ensures RunTasks(tasks, fates, st).pdfs.Keys == st.pdfs.Keys + Written(tasks, fates)
    decreases |tasks|
  {
    if tasks != [] {
      var t := tasks[0];
      var st' := ConvertToPdf(t, fates(t.path), st);
      RunPdfPaths(tasks[1..], fates, st');
      ConvertWritesOnePath(t, fates(t.path), st);
      assert Written(tasks, fates) == WrittenBy(t, fates) + Written(tasks[1..], fates);
    }
  }

  /** A single task adds its output path when it succeeds and nothing when it
      fails. */
  lemma ConvertWritesOnePath(t: Task, fate: Fate, st: RunState)
    ensures ConvertToPdf(t, fate, st).pdfs.Keys
            == st.pdfs.Keys + (if Succeeds(fate) then {OutputOf(t)} else {})
  {
  }

  /** Every task is accounted for: after the batch, a succeeding task's PDF
      exists at its output path, and a failing task has an error entry naming
      its source path in the log. */
  lemma EveryTaskAccountedFor(tasks: seq<Task>, fates: string -> Fate, st: RunState, t: Task)
    requires t in tasks
    ensures var r := RunTasks(tasks, fates, st);
            if Succeeds(fates(t.path)) then OutputOf(t) in r.pdfs
            else exists e :: e in r.log && IsErrorEntryFor(e, t.path)
  {
    var r := RunTasks(tasks, fates, st);
    var f := u => EntryOf(u, fates);
    RunLogIsErrors(tasks, fates, st);
    if Succeeds(fates(t.path)) {
      RunPdfPaths(tasks, fates, st);
      assert OutputOf(t) in WrittenBy(t, fates);
    } else {
      var e := f(t)[0];
      FlatMapHasImage(tasks, f, t, e);
      assert e in r.log;
    }
  }

  /** The batch's outcome does not depend on the schedule: any order of the
      same tasks keeps the existing log as a prefix, appends the same entries
      up to order, and writes PDFs at the same output paths. */
  lemma ScheduleIrrelevant(a: seq<Task>, b: seq<Task>, fates: string -> Fate, st: RunState)
    requires multiset(a) == multiset(b)
    ensures var ra, rb := RunTasks(a, fates, st), RunTasks(b, fates, st);
            && ra.log[..|st.log|] == rb.log[..|st.log|] == st.log
            && multiset(ra.log) == multiset(rb.log)
            && ra.pdfs.Keys == rb.pdfs.Keys
  {
    RunLogIsErrors(a, fates, st);
    RunLogIsErrors(b, fates, st);
    FlatMapPermutation(a, b, t => EntryOf(t, fates));
    RunPdfPaths(a, fates, st);
    RunPdfPaths(b, fates, st);
    HarvestPermutation(a, b, t => WrittenBy(t, fates));
  }

  const StartPrefix: string := "Starting conversion at "
  const FinishPrefix: string := "Finished conversion at "

  /** The run's own directory: the timestamp under the output root. A
      relative timestamp names a directory directly in the root. */
  function RunDir(outputRoot: string, stamp: string): (r: string)
    ensures EndsWith(r, stamp)
    ensures !(|stamp| > 0 && stamp[0] == Sep) ==> Inside(outputRoot, r) && |r| == |outputRoot| + Gap(outputRoot) + |stamp|
  {
    JoinInside(outputRoot, stamp);
    Join(outputRoot, stamp)
  }

  /** The run's log file: `logs/<timestamp>.log` under the run's directory.
      For a relative timestamp it is the directory, the separator `Join`
      adds, and exactly "logs/<timestamp>.log". */
  function LogFile(outputDir: string, stamp: string): (r: string)
    ensures EndsWith(r, stamp + ".log")
    ensures !(|stamp| > 0 && stamp[0] == Sep) ==>
              && Inside(outputDir, r)
              && EndsWith(r, "logs/" + stamp + ".log")
              && |r| == |outputDir| + Gap(outputDir) + |"logs/" + stamp + ".log"|
  {
    LogFileShape(outputDir, stamp);
    Join(Join(outputDir, "logs"), stamp + ".log")
  }

  /** The shape of the log file path for a relative timestamp. */
  lemma LogFileShape(outputDir: string, stamp: string)
    ensures var r := Join(Join(outputDir, "logs"), stamp + ".log");
            !(|stamp| > 0 && stamp[0] == Sep) ==>
              && Inside(outputDir, r)
              && EndsWith(r, "logs/" + stamp + ".log")
              && |r| == |outputDir| + Gap(outputDir) + |"logs/" + stamp + ".log"|
  {
    if !(|stamp| > 0 && stamp[0] == Sep) {
      LogFileShapeRelative(outputDir, stamp);
    }
  }

  lemma LogFileShapeRelative(outputDir: string, stamp: string)
    requires !(|stamp| > 0 && stamp[0] == Sep)
    ensures var r := Join(Join(outputDir, "logs"), stamp + ".log");
            && Inside(outputDir, r)
            && EndsWith(r, "logs/" + stamp + ".log")
            && |r| == |outputDir| + Gap(outputDir) + |"logs/" + stamp + ".log"|
  {
    var logs := Join(outputDir, "logs");
    var name := stamp + ".log";
    var r := Join(logs, name);
    JoinInside(outputDir, "logs");
    assert name[0] != Sep by {
      if |stamp| == 0 { assert name == ".log"; } else { assert name[0] == stamp[0]; }
    }
    JoinInside(logs, name);
    assert logs[|logs| - 1] == 's';
    assert r == logs + [Sep] + name;
    assert r[..|outputDir|] == logs[..|outputDir|];
    assert r[|r| - |"logs/" + name|..] == "logs/" + name by {
      assert logs[|logs| - 4..] == "logs";
      assert r[|r| - |"logs/" + name|..] == logs[|logs| - 4..] + [Sep] + name;
    }
    if outputDir != [] && outputDir[|outputDir| - 1] != Sep {
      assert r[|outputDir|] == logs[|outputDir|];
    }
  }

  /** What a run leaves behind: its output directory, its log file, the task
      list it built, and the log and PDFs. */
  datatype RunResult = RunResult(outputDir: string, logFile: string, tasks: seq<Task>, state: RunState)

  /** `main` once its inputs are read and the configuration is loaded and
      bootstrapped: the timestamped output directory and log file, the start
      marker, discovery, the batch, and the finish marker. The walk of the
      project directory, the millisecond timestamp and the two wall-clock
      times are inputs. Whatever the tasks do, the run ends with the finish
      marker. */
  function Run(walk: seq<WalkStep>, outputRoot: string, cfg: Config, fates: string -> Fate,
               stamp: string, startedAt: string, finishedAt: string): (r: RunResult)
    ensures |r.state.log| >= 2
    ensures r.state.log[0] == StartPrefix + startedAt + "\n"
    ensures r.state.log[|r.state.log| - 1] == FinishPrefix + finishedAt + "\n"
  {
    var outputDir := RunDir(outputRoot, stamp);
    var logFile := LogFile(outputDir, stamp);
    var tasks := Discover(walk, |walk|, outputDir, logFile, cfg);
    var st0 := RunState([StartPrefix + startedAt + "\n"], map[]);
    var st := RunTasks(tasks, fates, st0);
    var done := Append(st, FinishPrefix + finishedAt + "\n");
    assert done.log[0] == st.log[..1][0] == st0.log[0];
    RunResult(outputDir, logFile, tasks, done)
  }

  /** The run's log is the start marker, then one error entry per failing
      task in task order, then the finish marker; the PDFs sit exactly at the
      output paths of the succeeding tasks. */
  lemma RunShape(walk: seq<WalkStep>, outputRoot: string, cfg: Config, fates: string -> Fate,
                 stamp: string, startedAt: string, finishedAt: string)
    ensures var r := Run(walk, outputRoot, cfg, fates, stamp, startedAt, finishedAt);
            && r.tasks == Discover(walk, |walk|, r.outputDir, r.logFile, cfg)
            && r.state.log == [StartPrefix + startedAt + "\n"] + Errors(r.tasks, fates) + [FinishPrefix + finishedAt + "\n"]
            && r.state.pdfs.Keys == Written(r.tasks, fates)
  {
    var r := Run(walk, outputRoot, cfg, fates, stamp, startedAt, finishedAt);
    var st0 := RunState([StartPrefix + startedAt + "\n"], map[]);
    RunLogIsErrors(r.tasks, fates, st0);
    RunPdfPaths(r.tasks, fates, st0);
  }

  /** Every file the run selects is accounted for: its PDF exists, or the log
      holds an error entry naming its path. */
  lemma RunAccountsForEveryTask(walk: seq<WalkStep>, outputRoot: string, cfg: Config, fates: string -> Fate,
                                stamp: string, startedAt: string, finishedAt: string, t: Task)
    requires t in Run(walk, outputRoot, cfg, fates, stamp, startedAt, finishedAt).tasks
    ensures var r := Run(walk, outputRoot, cfg, fates, stamp, startedAt, finishedAt);
            if Succeeds(fates(t.path)) then OutputOf(t) in r.state.pdfs
            else exists e :: e in r.state.log && IsErrorEntryFor(e, t.path)
  {
    var r := Run(walk, outputRoot, cfg, fates, stamp, startedAt, finishedAt);
    var st0 := RunState([StartPrefix + startedAt + "\n"], map[]);
    EveryTaskAccountedFor(r.tasks, fates, st0, t);
    var st := RunTasks(r.tasks, fates, st0);
    assert forall e :: e in st.log ==> e in r.state.log;
  }

  /** The run's directory is named after the timestamp, directly in the
      output root; the log file is `<timestamp>.log` in the `logs`
      directory directly in the run's directory. */
  lemma RunPathsFollowTimestamp(outputRoot: string, stamp: string)
    requires Sep !in stamp
    ensures Basename(RunDir(outputRoot, stamp)) == stamp
    ensures DirectlyInside(outputRoot, RunDir(outputRoot, stamp))
    ensures var d := RunDir(outputRoot, stamp);
            && Basename(LogFile(d, stamp)) == stamp + ".log"
            && Inside(d, LogFile(d, stamp))
            && EndsWith(LogFile(d, stamp), "logs/" + stamp + ".log")
            && |LogFile(d, stamp)| == |d| + Gap(d) + |"logs/" + stamp + ".log"|
  {
    BasenameOfJoin(outputRoot, stamp);
    var d := RunDir(outputRoot, stamp);
    assert !(|stamp| > 0 && stamp[0] == Sep) by {
      if |stamp| > 0 { assert stamp[0] in stamp; }
    }
    LogFileNamedAfterStamp(d, stamp);
  }

  lemma LogFileNamedAfterStamp(d: string, stamp: string)
    requires Sep !in stamp
    ensures Basename(LogFile(d, stamp)) == stamp + ".log"
  {
    LogNameHasNoSep(stamp);
    BasenameOfJoin(Join(d, "logs"), stamp + ".log");
  }

  lemma LogNameHasNoSep(stamp: string)
    requires Sep !in stamp
    ensures Sep !in stamp + ".log"
  {
  }

  /** Every PDF of the run sits directly in the run's output directory, under
      a name ending with ".pdf". */
  lemma RunPdfsInsideOutputDir(walk: seq<WalkStep>, outputRoot: string, cfg: Config, fates: string -> Fate,
                               stamp: string, startedAt: string, finishedAt: string)
    ensures var r := Run(walk, outputRoot, cfg, fates, stamp, startedAt, finishedAt);
            forall o :: o in r.state.pdfs ==> DirectlyInside(r.outputDir, o) && EndsWith(Basename(o), PdfSuffix)
  {
    var r := Run(walk, outputRoot, cfg, fates, stamp, startedAt, finishedAt);
    RunShape(walk, outputRoot, cfg, fates, stamp, startedAt, finishedAt);
    forall t | t in r.tasks
      ensures t.outputDir == r.outputDir
    {
      DiscoverIff(walk, |walk|, r.outputDir, r.logFile, cfg, t);
    }
    WrittenInside(r.tasks, fates, r.outputDir);
  }

  /** Tasks that all write into `d` have all their output paths directly in
      `d`, with PDF names. */
  lemma WrittenInside(tasks: seq<Task>, fates: string -> Fate, d: string)
    requires forall t :: t in tasks ==> t.outputDir == d
    ensures forall o :: o in Written(tasks, fates) ==> DirectlyInside(d, o) && EndsWith(Basename(o), PdfSuffix)
  {
    forall o | o in Written(tasks, fates)
      ensures DirectlyInside(d, o) && EndsWith(Basename(o), PdfSuffix)
    {
      var t :| t in tasks && o in WrittenBy(t, fates);
      OutputDirectlyInside(t);
    }
  }

  /** A task's output path sits directly in its output directory. */
  lemma OutputDirectlyInside(t: Task)
    ensures DirectlyInside(t.outputDir, OutputOf(t)) && EndsWith(Basename(OutputOf(t)), PdfSuffix)
  {
    var o := OutputOf(t);
    assert Basename(o) == PdfFileName(t.path);
  }
}

=== FILE: converter.dfy ===
/**
 The pure part of `convert_to_pdf`: the values computed from a source path
 and the configuration (file name, class name, file type, explanation label,
 PDF name and output path) and the header banner assembled from them.
 */
module Converter {
  import opened Wrappers
  import opened Ascii
  import opened Text
  import opened Paths

  /** The configuration as the tasks see it: the `file_types` table from
      lower-case extension to a human-readable label. */
  datatype Config = Config(fileTypes: map<string, string>)

  /** The label used when the file type is not in the table. */
  const DefaultExplanation: string := "Code File"

  const PdfSuffix: string := ".pdf"

  /** `file_name`: the basename of the source path, the longest ending of
      the path that holds no separator. */
  function FileName(path: string): (r: string)
    ensures EndsWith(path, r) && Sep !in r
    ensures r == path || path[|path| - |r| - 1] == Sep
  {
    Basename(path)
  }

  /** `class_name`: the file name without the extension `splitext` finds.
      It is a prefix of the file name and so holds no separator. */
  function ClassName(path: string): (r: string)
    ensures |r| <= |FileName(path)| && FileName(path)[..|r|] == r
    ensures Sep !in r
  {
    SplitExt(FileName(path)).0
  }

  /** `file_type`: the last '.'-separated part of the WHOLE path, upper-cased.
      That part is the text after the path's last '.', or the whole path when
      it has none; it never contains a '.'. */
  function FileType(path: string): (r: string)
    ensures ExtSep !in r
    ensures |r| <= |path|
    ensures r == Upper(path[RFind(path, ExtSep) + 1..])
    ensures ExtSep !in path ==> r == Upper(path)
  {
    var parts := Split(path, ExtSep);
    LastPartFollowsLastSeparator(path, ExtSep);
    UpperKeepsNonLetters(parts[|parts| - 1], ExtSep);
    assert ExtSep !in path ==> path[0..] == path;
    Upper(parts[|parts| - 1])
  }

  /** `explanation`: the label stored under the lower-cased file type, or the
      default label. Only keys without capitals can ever be consulted. */
  function Explanation(cfg: Config, fileType: string): (r: string)
    ensures r == DefaultExplanation
            || exists k :: k in cfg.fileTypes && NoUpper(k) && cfg.fileTypes[k] == r
  {
    var key := Lower(fileType);
    if key in cfg.fileTypes then
      LowerHasNoUpper(fileType);
      cfg.fileTypes[key]
    else DefaultExplanation
  }

  /** `pdf_file_name`: the class name with ".pdf" appended. */
  function PdfFileName(path: string): (r: string)
    ensures EndsWith(r, PdfSuffix)
    ensures Sep !in r
    ensures r[..|r| - |PdfSuffix|] == ClassName(path)
  {
    var stem := ClassName(path);
    var r := stem + PdfSuffix;
    assert r[..|stem|] == stem;
    assert r[|stem|..] == PdfSuffix;
    assert Sep !in PdfSuffix;
    r
  }

  /** `pdf_output_path`: the PDF name joined onto the output directory. The
      result lies directly in the directory: the directory, the separator
      `Join` adds, and the PDF name as its basename. */
  function PdfOutputPath(outputDir: string, path: string): (r: string)
    ensures Inside(outputDir, r)
    ensures Basename(r) == PdfFileName(path)
    ensures |r| == |outputDir| + Gap(outputDir) + |PdfFileName(path)|
  {
    var name := PdfFileName(path);
    BasenameOfJoin(outputDir, name);
    JoinInside(outputDir, name);
    Join(outputDir, name)
  }

  /** The four values shown in the header banner. */
  datatype Banner = Banner(fileName: string, className: string, fileType: string, explanation: string)

  /** The banner of one source: its file name ends the path, its class name
      begins the file name, its file type is the upper-cased text after the
      path's last '.', and its explanation is the default or a configured
      label. */
  function BannerOf(path: string, cfg: Config): (r: Banner)
    ensures EndsWith(path, r.fileName) && Sep !in r.fileName
    ensures r.fileName == path || path[|path| - |r.fileName| - 1] == Sep
    ensures r.className == ClassName(path) && r.explanation == Explanation(cfg, r.fileType)
    ensures |r.className| <= |r.fileName| && r.fileName[..|r.className|] == r.className
    ensures r.fileType == Upper(path[RFind(path, ExtSep) + 1..])
    ensures r.explanation == DefaultExplanation || r.explanation in cfg.fileTypes.Values
  {
    var fileName := FileName(path);
    var className := ClassName(path);
    var fileType := FileType(path);
    var explanation := Explanation(cfg, fileType);
    assert EndsWith(path, fileName) && Sep !in fileName;
    assert fileName == path || path[|path| - |fileName| - 1] == Sep;
    assert |className| <= |fileName| && fileName[..|className|] == className;
    assert fileType == Upper(path[RFind(path, ExtSep) + 1..]);
    assert explanation == DefaultExplanation || explanation in cfg.fileTypes.Values;
    Banner(fileName, className, fileType, explanation)
  }

  const HeaderOpen: string := "<div style='background:gray; color:white; padding:5px;'>"
  const HeaderClose: string := "]</div>"

  /** The header banner: file name, class name, file type and bracketed
      explanation inside a grey div. */
  function Header(b: Banner): (r: string)
    ensures |HeaderOpen| + |b.fileName| <= |r| && r[..|HeaderOpen|] == HeaderOpen
    ensures r[|HeaderOpen|..|HeaderOpen| + |b.fileName|] == b.fileName
    ensures EndsWith(r, " [" + b.explanation + HeaderClose)
  {
    HeaderOpen + FieldsText(b) + HeaderClose
  }

  /** The text of the banner between its frame. */
  function FieldsText(b: Banner): string {
    b.fileName + " | " + b.className + " | " + b.fileType + " [" + b.explanation
  }

  /** Cuts `s` at the first `mark`, which must be preceded by a space and
      followed by `tail`: the text before the space and the text after the
      tail. */
  function CutAt(s: string, mark: char, tail: string): Option<(string, string)> {
    match IndexOf(s, mark)
    case None => None
    case Some(i) =>
      if 1 <= i && i + 1 + |tail| <= |s| && s[i - 1] == ' ' && s[i + 1..i + 1 + |tail|] == tail
      then Some((s[..i - 1], s[i + 1 + |tail|..]))
      else None
  }

  /** Reads the four values back out of a header banner. */
  function ParseHeader(h: string): Option<Banner> {
    if |h| < |HeaderOpen| + |HeaderClose| || h[..|HeaderOpen|] != HeaderOpen || !EndsWith(h, HeaderClose) then None
    else ParseFields(h[|HeaderOpen|..|h| - |HeaderClose|])
  }

  /** Reads the four values out of the text between the banner's frame. */
  function ParseFields(body: string): Option<Banner> {
    match CutAt(body, '|', " ")
    case None => None
    case Some(first) =>
      match CutAt(first.1, '|', " ")
      case None => None
      case Some(second) =>
        match CutAt(second.1, '[', "")
        case None => None
        case Some(third) => Some(Banner(first.0, second.0, third.0, third.1))
  }

  /** Cutting a field that does not contain the mark finds that field. */
  lemma CutAtField(a: string, mark: char, tail: string, b: string)
    requires mark != ' ' && mark !in a
    ensures CutAt(a + " " + [mark] + tail + b, mark, tail) == Some((a, b))
  {
    var s := a + " " + [mark] + tail + b;
    var i := |a| + 1;
    assert s[i] == mark;
    assert s[..i] == a + " ";
    assert mark !in s[..i];
    assert IndexOf(s, mark) == Some(i);
    assert s[i + 1..i + 1 + |tail|] == tail;
    assert s[..i - 1] == a;
    assert s[i + 1 + |tail|..] == b;
  }

  /** A '.' in a directory name leaks into the file type of a file whose
      name has none: the file type then spans a separator and ends with the
      upper-cased file name (for "src/v1.2/Makefile" it is "2/MAKEFILE"). */
  lemma DirectoryDotLeaksIntoFileType(dir: string, name: string)
    requires ExtSep in dir && ExtSep !in name && Sep !in name && name != []
    ensures Sep in FileType(Join(dir, name))
    ensures EndsWith(FileType(Join(dir, name)), Upper(name))
  {
    var path := Join(dir, name);
    LastDotOfJoin(dir, name);
    assert name[0] != Sep;
    FileTypeKeepsSeparatorAndName(path, name);
  }

  /** When the last '.' of a path comes before a separator that is followed
      by `name` at its end, the file type keeps that separator and ends with
      the upper-cased name. */
  lemma FileTypeKeepsSeparatorAndName(path: string, name: string)
    requires 0 <= RFind(path, ExtSep) < |path| - |name| - 1
    requires path[|path| - |name| - 1] == Sep && EndsWith(path, name)
    ensures Sep in FileType(path)
    ensures EndsWith(FileType(path), Upper(name))
  {
    var tail := path[RFind(path, ExtSep) + 1..];
    TailKeepsSeparatorAndName(path, RFind(path, ExtSep), name);
    UpperKeepsNonLetters(tail, Sep);
    var k := |tail| - |name|;
    UpperOfSuffix(tail, k);
    assert tail[k..] == name;
    assert FileType(path)[k..] == Upper(name);
  }

  /** The text after index `d` of a path that ends with a separator and then
      `name` holds that separator and ends with `name`. */
  lemma TailKeepsSeparatorAndName(path: string, d: int, name: string)
    requires 0 <= d < |path| - |name| - 1
    requires path[|path| - |name| - 1] == Sep && EndsWith(path, name)
    ensures Sep in path[d + 1..]
    ensures EndsWith(path[d + 1..], name)
  {
    var tail := path[d + 1..];
    assert tail[|path| - |name| - 1 - d - 1] == Sep;
    assert tail[|tail| - |name|..] == name;
  }

  /** Joining a name free of '.' and of separators keeps the directory's last
      '.' as the path's last '.', before the separator the join puts in. */
  lemma LastDotOfJoin(dir: string, name: string)
    requires ExtSep in dir && ExtSep !in name && Sep !in name && name != []
    ensures RFind(Join(dir, name), ExtSep) == RFind(dir, ExtSep)
    ensures RFind(dir, ExtSep) < |Join(dir, name)| - |name| - 1
  {
    var path := Join(dir, name);
    var d := RFind(dir, ExtSep);
    var s := |path| - |name| - 1;
    assert path[..|dir|] == dir;
    assert path[d] == dir[d];
    forall j | d + 1 <= j < |path|
      ensures path[j] != ExtSep
    {
      if j < |dir| {
        assert path[j] == dir[j] == dir[d + 1..][j - d - 1];
      } else if j > s {
        assert path[j] == path[s + 1..][j - s - 1];
      }
    }
    assert ExtSep !in path[d + 1..];
    LastIndexOfUnique(path, ExtSep, d);
  }

  /** A path whose lower-cased form ends with '.' followed by a lower-case
      key of the table gets that key's label: the lookup ignores the case of
      the path. */
  lemma ExplanationOfKnownExtension(cfg: Config, path: string, k: string)
    requires k in cfg.fileTypes && NoUpper(k) && ExtSep !in k
    requires EndsWith(Lower(path), [ExtSep] + k)
    ensures Explanation(cfg, FileType(path)) == cfg.fileTypes[k]
  {
    var d := |path| - |k| - 1;
    var ext := path[d + 1..];
    LowerTailIsKey(path, k);
    assert Lower(ext) == k;
    LastIndexOfUnique(path, ExtSep, d);
    assert FileType(path) == Upper(ext);
    LowerOfUpper(ext);
  }

  /** A path with a '.' whose lower-cased form ends with '.' followed by no
      key of the table gets the default label. */
  lemma ExplanationOfUnknownExtension(cfg: Config, path: string)
    requires ExtSep in path
    requires forall k :: k in cfg.fileTypes && ExtSep !in k ==> !EndsWith(Lower(path), [ExtSep] + k)
    ensures Explanation(cfg, FileType(path)) == DefaultExplanation
  {
    var d := RFind(path, ExtSep);
    var ext := path[d + 1..];
    assert FileType(path) == Upper(ext);
    LowerOfUpper(ext);
    LowerOfDotTail(path, d);
    LowerKeepsNonLetters(ext, ExtSep);
  }

  /** A key holding a '.' is never looked up: the lower-cased file type holds
      no '.'. So a file selected by such a key, say "x.d.ts" by "d.ts", is
      labelled after the text past its last '.' instead. */
  lemma DottedKeyNeverConsulted(path: string, k: string)
    requires ExtSep in k
    ensures Lower(FileType(path)) != k
  {
    LowerKeepsNonLetters(FileType(path), ExtSep);
  }

  /** The lookup can reach a key exactly when the key has no capitals and no
      '.': some path's file type lower-cases to it then, and none otherwise.
      Keys such as "PY" or "d.ts" still select files but never label them. */
  lemma KeyReachableIffNoUpper(k: string)
    ensures (exists p :: Lower(FileType(p)) == k) <==> NoUpper(k) && ExtSep !in k
  {
    if exists p :: Lower(FileType(p)) == k {
      var p :| Lower(FileType(p)) == k;
      LookupKeyIsPlain(p);
    }
    if NoUpper(k) && ExtSep !in k {
      PlainKeyIsItsOwnLookup(k);
    }
  }

  /** The lower-cased file type has neither capitals nor '.'. */
  lemma LookupKeyIsPlain(p: string)
    ensures NoUpper(Lower(FileType(p))) && ExtSep !in Lower(FileType(p))
  {
    LowerHasNoUpper(FileType(p));
    LowerKeepsNonLetters(FileType(p), ExtSep);
  }

  /** A key without capitals or '.', taken as a path, looks itself up. */
  lemma PlainKeyIsItsOwnLookup(k: string)
    requires NoUpper(k) && ExtSep !in k
    ensures Lower(FileType(k)) == k
  {
    assert FileType(k) == Upper(k);
    LowerOfUpper(k);
    LowerFixesExactlyNoUpper(k);
  }


  /** A path without a '.' is its own file type: it gets the label stored
      under the whole lower-cased path, or the default label. */
  lemma ExplanationWithoutDot(cfg: Config, path: string)
    requires ExtSep !in path
    ensures Lower(path) in cfg.fileTypes ==> Explanation(cfg, FileType(path)) == cfg.fileTypes[Lower(path)]
    ensures Lower(path) !in cfg.fileTypes ==> Explanation(cfg, FileType(path)) == DefaultExplanation
  {
    assert FileType(path) == Upper(path);
    LowerOfUpper(path);
  }

  /** Lower-casing keeps the '.' at index `d` and lower-cases what follows. */
  lemma LowerOfDotTail(path: string, d: int)
    requires 0 <= d < |path| && path[d] == ExtSep
    ensures EndsWith(Lower(path), [ExtSep] + Lower(path[d + 1..]))
  {
    var low := Lower(path);
    var want := [ExtSep] + Lower(path[d + 1..]);
    forall j | 0 <= j < |want|
      ensures low[d + j] == want[j]
    {
      if j > 0 {
        assert path[d + j] == path[d + 1..][j - 1];
      }
    }
    assert low[d..] == want;
  }

  /** The character-level half of `ExplanationOfKnownExtension`: the path has
      its last '.' where its lower-cased form does, and the rest lower-cases
      to the key. */
  lemma LowerTailIsKey(path: string, k: string)
    requires ExtSep !in k
    requires EndsWith(Lower(path), [ExtSep] + k)
    ensures var d := |path| - |k| - 1;
            && path[d] == ExtSep
            && ExtSep !in path[d + 1..]
            && Lower(path[d + 1..]) == k
  {
    var d := |path| - |k| - 1;
    var low := Lower(path);
    assert low[d..] == [ExtSep] + k;
    assert low[d] == ExtSep;
    var ext := path[d + 1..];
    forall j | 0 <= j < |ext|
      ensures ext[j] != ExtSep && LowerChar(ext[j]) == k[j]
    {
      assert low[d + 1 + j] == ([ExtSep] + k)[1 + j] == k[j];
    }
    assert Lower(ext) == k;
  }

  /** The class name is the whole file name exactly when the file name has
      no '.' after a character other than '.'; otherwise it is the file name
      up to its last '.'. */
  lemma {:induction false} ClassNameIsStem(path: string)
    ensures ClassName(path) == FileName(path) <==> !exists i :: InnerDotAt(FileName(path), i)
    ensures (exists i :: InnerDotAt(FileName(path), i))
            ==> ClassName(path) == FileName(path)[..RFind(FileName(path), ExtSep)]
  {
    var name := FileName(path);
    SplitExtCutsIffInnerDot(name);
  }

  /** Two sources are written to the same output path exactly when their
      class names agree, whatever directories they come from. */
  lemma {:induction false} OutputPathsCollideIffSameClassName(outputDir: string, p: string, q: string)
    ensures PdfOutputPath(outputDir, p) == PdfOutputPath(outputDir, q) <==> ClassName(p) == ClassName(q)
  {
    if PdfOutputPath(outputDir, p) == PdfOutputPath(outputDir, q) {
      assert PdfFileName(p) == PdfFileName(q);
    }
  }

  /** The header is unambiguous: when the file name holds no '|' and the file
      type no '[', the four values are read back from it in order. */
  lemma {:induction false} HeaderReadsBack(b: Banner)
    requires '|' !in b.fileName && '|' !in b.className && '[' !in b.fileType
    ensures ParseHeader(Header(b)) == Some(b)
  {
    ParseHeaderUnframes(FieldsText(b));
    FieldsReadBack(b);
  }

  lemma FieldsReadBack(b: Banner)
    requires '|' !in b.fileName && '|' !in b.className && '[' !in b.fileType
    ensures ParseFields(FieldsText(b)) == Some(b)
  {
    var rest2 := b.fileType + " " + ['['] + "" + b.explanation;
    var rest1 := b.className + " " + ['|'] + " " + rest2;
    var body := b.fileName + " " + ['|'] + " " + rest1;
    assert FieldsText(b) == body;
    CutAtField(b.fileName, '|', " ", rest1);
    CutAtField(b.className, '|', " ", rest2);
    CutAtField(b.fileType, '[', "", b.explanation);
  }

  /** The frame of the banner is recognised and removed. */
  lemma ParseHeaderUnframes(body: string)
    ensures ParseHeader(HeaderOpen + body + HeaderClose) == ParseFields(body)
  {
    var h := HeaderOpen + body + HeaderClose;
    assert h[..|HeaderOpen|] == HeaderOpen;
    assert h[|HeaderOpen|..|h| - |HeaderClose|] == body;
    assert h[|h| - |HeaderClose|..] == HeaderClose;
  }

  /** The banner of a source path whose text holds no '|' or '[' is read back
      from its header. */
  lemma BannerReadsBack(path: string, cfg: Config)
    requires '|' !in path && '[' !in path
    ensures ParseHeader(Header(BannerOf(path, cfg))) == Some(BannerOf(path, cfg))
  {
    BannerFieldsHoldNoMarks(path, cfg);
    HeaderReadsBack(BannerOf(path, cfg));
  }

  /** The banner's file name and class name are pieces of the path, and its
      file type upper-cases a piece of it, so none of them gains a '|' or a
      '['. */
  lemma BannerFieldsHoldNoMarks(path: string, cfg: Config)
    requires '|' !in path && '[' !in path
    ensures var b := BannerOf(path, cfg);
            '|' !in b.fileName && '|' !in b.className && '[' !in b.fileType
  {
    var b := BannerOf(path, cfg);
    assert b.fileName == path[|path| - |b.fileName|..];
    assert b.className == b.fileName[..|b.className|];
    var tail := path[RFind(path, ExtSep) + 1..];
    assert '[' !in tail;
    UpperKeepsNonLetters(tail, '[');
  }
}

=== FILE: discovery.dfy ===
/**
 File discovery in `main`: every file reported by the directory walk whose
 name ends with one of the configured `file_types` keys becomes one
 conversion task, in walk order.
 */
module Discovery {
  import opened Text
  import opened Paths
  import opened Converter

  /** One directory reported by `os.walk`: its path and the names of the
      files directly in it. The walk order itself is taken as given. */
  datatype WalkStep = WalkStep(root: string, files: seq<string>)

  /** The descriptor of one conversion task: source path, output directory,
      log file and configuration. */
  datatype Task = Task(path: string, outputDir: string, logFile: string, config: Config)

  /** `name.endswith(tuple(keys))`: a raw, case-sensitive suffix test against
      every key; no '.' is required before the key. */
  predicate Selected(name: string, keys: set<string>) {
    exists k :: k in keys && EndsWith(name, k)
  }

  /** A name is selected exactly when some ending of it is itself a key. */
  lemma SelectedIffSomeEndingIsKey(name: string, keys: set<string>)
    ensures Selected(name, keys) <==> exists i :: 0 <= i <= |name| && name[i..] in keys
  {
    if Selected(name, keys) {
      var k :| k in keys && EndsWith(name, k);
      assert name[|name| - |k|..] in keys;
    }
    if exists i :: 0 <= i <= |name| && name[i..] in keys {
      var i :| 0 <= i <= |name| && name[i..] in keys;
      assert EndsWith(name, name[i..]);
    }
  }

  /** The tasks for the first `n` files of one directory, in order. */
  function TasksIn(step: WalkStep, n: nat, outputDir: string, logFile: string, cfg: Config): (r: seq<Task>)
    requires n <= |step.files|
    ensures |r| <= n
    ensures forall k :: 0 <= k < |r| ==> r[k].outputDir == outputDir && r[k].logFile == logFile && r[k].config == cfg
    decreases n
  {
    if n == 0 then []
    else
      var name := step.files[n - 1];
      TasksIn(step, n - 1, outputDir, logFile, cfg)
        + (if Selected(name, cfg.fileTypes.Keys)
           then [Task(Join(step.root, name), outputDir, logFile, cfg)]
           else [])
  }

  /** The task list built from the first `n` directories of the walk. There
      is at most one task per walked file, and every task shares the run's
      output directory, log file and configuration. */
  function Discover(walk: seq<WalkStep>, n: nat, outputDir: string, logFile: string, cfg: Config): (r: seq<Task>)
    requires n <= |walk|
    ensures |r| <= FileCount(walk, n)
    ensures forall k :: 0 <= k < |r| ==> r[k].outputDir == outputDir && r[k].logFile == logFile && r[k].config == cfg
    decreases n
  {
    if n == 0 then []
    else Discover(walk, n - 1, outputDir, logFile, cfg)
           + TasksIn(walk[n - 1], |walk[n - 1].files|, outputDir, logFile, cfg)
  }

  /** The number of files in the first `n` directories of the walk. */
  function FileCount(walk: seq<WalkStep>, n: nat): nat
    requires n <= |walk|
  {
    if n == 0 then 0 else FileCount(walk, n - 1) + |walk[n - 1].files|
  }

  /** The file `walk[i].files[j]` is selected and its task is `t`. */
  predicate SelectsAt(walk: seq<WalkStep>, i: int, j: int, t: Task, outputDir: string, logFile: string, cfg: Config) {
    && 0 <= i < |walk| && 0 <= j < |walk[i].files|
    && Selected(walk[i].files[j], cfg.fileTypes.Keys)
    && t == Task(Join(walk[i].root, walk[i].files[j]), outputDir, logFile, cfg)
  }

  /** Inside one directory: a task is listed exactly when it is built from a
      selected file of that directory. */
  lemma {:induction false} TasksInIff(walk: seq<WalkStep>, i: int, n: nat, outputDir: string, logFile: string, cfg: Config, t: Task)
    requires 0 <= i < |walk| && n <= |walk[i].files|
    ensures t in TasksIn(walk[i], n, outputDir, logFile, cfg)
            <==> exists j :: 0 <= j < n && SelectsAt(walk, i, j, t, outputDir, logFile, cfg)
    decreases n
  {
    if n > 0 {
      TasksInIff(walk, i, n - 1, outputDir, logFile, cfg, t);
      if SelectsAt(walk, i, n - 1, t, outputDir, logFile, cfg) {
        assert t in TasksIn(walk[i], n, outputDir, logFile, cfg);
      }
    }
  }

  /** A task is discovered exactly when it is built from a selected file of
      some walked directory: files matching no key never appear, and every
      matching file does. */
  lemma {:induction false} DiscoverIff(walk: seq<WalkStep>, n: nat, outputDir: string, logFile: string, cfg: Config, t: Task)
    requires n <= |walk|
    ensures t in Discover(walk, n, outputDir, logFile, cfg)
            <==> exists i, j :: 0 <= i < n && SelectsAt(walk, i, j, t, outputDir, logFile, cfg)
    decreases n
  {
    if t in Discover(walk, n, outputDir, logFile, cfg) {
      DiscoveredFromSomeFile(walk, n, outputDir, logFile, cfg, t);
    }
    if exists i, j :: 0 <= i < n && SelectsAt(walk, i, j, t, outputDir, logFile, cfg) {
      var i, j :| 0 <= i < n && SelectsAt(walk, i, j, t, outputDir, logFile, cfg);
      EverySelectedFileDiscovered(walk, n, outputDir, logFile, cfg, i, j, t);
    }
  }

  /** The "only if" half of `DiscoverIff`: a discovered task comes from a
      selected file of one of the first `n` directories. */
  lemma {:induction false} DiscoveredFromSomeFile(walk: seq<WalkStep>, n: nat, outputDir: string, logFile: string, cfg: Config, t: Task)
    requires n <= |walk|
    requires t in Discover(walk, n, outputDir, logFile, cfg)
    ensures exists i, j :: 0 <= i < n && SelectsAt(walk, i, j, t, outputDir, logFile, cfg)
    decreases n
  {
    var prev := Discover(walk, n - 1, outputDir, logFile, cfg);
    var here := TasksIn(walk[n - 1], |walk[n - 1].files|, outputDir, logFile, cfg);
    assert Discover(walk, n, outputDir, logFile, cfg) == prev + here;
    if t in prev {
      DiscoveredFromSomeFile(walk, n - 1, outputDir, logFile, cfg, t);
      var i, j :| 0 <= i < n - 1 && SelectsAt(walk, i, j, t, outputDir, logFile, cfg);
      assert 0 <= i < n;
    } else {
      assert t in here;
      TasksInIff(walk, n - 1, |walk[n - 1].files|, outputDir, logFile, cfg, t);
      var j :| 0 <= j < |walk[n - 1].files| && SelectsAt(walk, n - 1, j, t, outputDir, logFile, cfg);
      assert 0 <= n - 1 < n;
    }
  }

  /** The task of a selected file is listed among its directory's tasks. */
  lemma SelectedFileListed(walk: seq<WalkStep>, i: int, j: int, t: Task, outputDir: string, logFile: string, cfg: Config)
    requires SelectsAt(walk, i, j, t, outputDir, logFile, cfg)
    ensures t in TasksIn(walk[i], |walk[i].files|, outputDir, logFile, cfg)
  {
    TasksInIff(walk, i, |walk[i].files|, outputDir, logFile, cfg, t);
  }

  /** The "if" half of `DiscoverIff`: the task of a selected file of one of
      the first `n` directories is discovered. */
  lemma {:induction false} EverySelectedFileDiscovered(walk: seq<WalkStep>, n: nat, outputDir: string, logFile: string, cfg: Config,
                                                       i: int, j: int, t: Task)
    requires n <= |walk| && 0 <= i < n
    requires SelectsAt(walk, i, j, t, outputDir, logFile, cfg)
    ensures t in Discover(walk, n, outputDir, logFile, cfg)
    decreases n
  {
    var prev := Discover(walk, n - 1, outputDir, logFile, cfg);
    var here := TasksIn(walk[n - 1], |walk[n - 1].files|, outputDir, logFile, cfg);
    if i == n - 1 {
      SelectedFileListed(walk, i, j, t, outputDir, logFile, cfg);
      assert t in here;
    } else {
      EverySelectedFileDiscovered(walk, n - 1, outputDir, logFile, cfg, i, j, t);
      assert t in prev;
    }
    assert t in prev + here;
  }

  /** Every discovered task points into the run's output directory and log
      and, since walked file names hold no separator, its file name is
      selected by some key. */
  lemma DiscoveredNamesAreSelected(walk: seq<WalkStep>, outputDir: string, logFile: string, cfg: Config, t: Task)
    requires forall i, j :: 0 <= i < |walk| && 0 <= j < |walk[i].files| ==> Sep !in walk[i].files[j]
    requires t in Discover(walk, |walk|, outputDir, logFile, cfg)
    ensures t.outputDir == outputDir && t.logFile == logFile && t.config == cfg
    ensures Selected(FileName(t.path), cfg.fileTypes.Keys)
  {
    DiscoverIff(walk, |walk|, outputDir, logFile, cfg, t);
    var i, j :| 0 <= i < |walk| && SelectsAt(walk, i, j, t, outputDir, logFile, cfg);
    BasenameOfJoin(walk[i].root, walk[i].files[j]);
  }

  /** The nested loops of `main` that build the task list. */
  method CollectTasks(walk: seq<WalkStep>, outputDir: string, logFile: string, cfg: Config) returns (tasks: seq<Task>)
    ensures tasks == Discover(walk, |walk|, outputDir, logFile, cfg)
  {
    var keys := cfg.fileTypes.Keys;
    tasks := [];
    var i := 0;
    while i < |walk|
      invariant i <= |walk|
      invariant tasks == Discover(walk, i, outputDir, logFile, cfg)
    {
      var step := walk[i];
      var j := 0;
      while j < |step.files|
        invariant j <= |step.files|
        invariant tasks == Discover(walk, i, outputDir, logFile, cfg) + TasksIn(step, j, outputDir, logFile, cfg)
      {
        var name := step.files[j];
        if Selected(name, keys) {
          tasks := tasks + [Task(Join(step.root, name), outputDir, logFile, cfg)];
        }
        j := j + 1;
      }
      i := i + 1;
    }
  }

  /** The suffix test needs no '.': key "py" selects "happy". */
  lemma SuffixNeedsNoDot()
    ensures Selected("happy", {"py"})
    ensures !Selected("a.PY", {"py"})
  {
    assert EndsWith("happy", "py");
  }
}

=== FILE: paths.dfy ===
/**
 The path operations the converter calls, with POSIX semantics
 (`posixpath`): '/' is the only separator and there are no drive letters.
 */
module Paths {
  import opened Text

  const Sep: char := '/'
  const ExtSep: char := '.'

  /** `os.path.basename`: the text after the last separator. It is the longest
      suffix of `p` free of separators. */
  function Basename(p: string): (r: string)
    ensures EndsWith(p, r)
    ensures Sep !in r
    ensures |r| < |p| ==> p[|p| - |r| - 1] == Sep
  {
    p[RFind(p, Sep) + 1..]
  }

  /** `os.path.join(a, b)`: an absolute `b` replaces `a`; otherwise one
      separator is put between them unless `a` is empty or already ends with
      one. */
  function Join(a: string, b: string): (r: string)
    ensures EndsWith(r, b)
    ensures !(|b| > 0 && b[0] == Sep) ==> |a| + |b| <= |r| && r[..|a|] == a
    ensures !(|b| > 0 && b[0] == Sep) && |a| > 0 ==> r[|r| - |b| - 1] == Sep
    ensures !(|b| > 0 && b[0] == Sep) ==> |r| <= |a| + |b| + 1
    ensures |b| > 0 && b[0] == Sep ==> r == b
    ensures !(|b| > 0 && b[0] == Sep) ==> (|r| == |a| + |b| <==> (a == [] || a[|a| - 1] == Sep))
  {
    if |b| > 0 && b[0] == Sep then b
    else if a == [] || a[|a| - 1] == Sep then a + b
    else a + [Sep] + b
  }

  /** The separator `Join` puts after `a` before a relative second part:
      none when `a` is empty or already ends with one. */
  function Gap(a: string): nat {
    if a == [] || a[|a| - 1] == Sep then 0 else 1
  }

  /** `p` lies inside the directory `dir`: it extends `dir`, and what follows
      starts a new path component, so "a/bc" is not inside "a/b". */
  predicate Inside(dir: string, p: string) {
    && |dir| <= |p| && p[..|dir|] == dir
    && (dir == [] || dir[|dir| - 1] == Sep || (|dir| < |p| && p[|dir|] == Sep))
  }

  /** `p` sits directly in `dir`: inside it, with nothing between `dir`, the
      separator `Join` would add, and the basename of `p`. */
  predicate DirectlyInside(dir: string, p: string) {
    Inside(dir, p) && |p| == |dir| + Gap(dir) + |Basename(p)|
  }

  /** A relative second part joined onto a directory lies inside it, exactly
      one `Gap` after it. */
  lemma JoinInside(a: string, b: string)
    ensures !(|b| > 0 && b[0] == Sep) ==> Inside(a, Join(a, b)) && |Join(a, b)| == |a| + Gap(a) + |b|
  {
    var r := Join(a, b);
    if !(|b| > 0 && b[0] == Sep) && a != [] && a[|a| - 1] != Sep {
      assert r[|a|] == r[|r| - |b| - 1] == Sep;
    }
  }

  /** Joining a plain name onto a directory and taking the basename gives the
      name back. */
  lemma BasenameOfJoin(dir: string, name: string)
    requires Sep !in name
    ensures Basename(Join(dir, name)) == name
  {
    var p := Join(dir, name);
    var i := |p| - |name| - 1;
    assert p[|p| - |name|..] == name;
    if |dir| > 0 {
      assert p[i] == Sep;
      LastIndexOfUnique(p, Sep, i);
    } else {
      assert p == name;
    }
  }

  /** True when `p[lo..hi]` holds a character other than '.'. */
  predicate HasNonDot(p: string, lo: int, hi: int)
    requires 0 <= lo <= hi <= |p|
  {
    exists k :: lo <= k < hi && p[k] != ExtSep
  }

  /** `os.path.splitext`: splits at the last '.' of the last path component,
      except that dots leading that component do not start an extension. */
  function SplitExt(p: string): (r: (string, string))
    ensures r.0 + r.1 == p
    ensures r.1 == [] || (r.1[0] == ExtSep && ExtSep !in r.1[1..] && Sep !in r.1)
  {
    var sepIndex := RFind(p, Sep);
    var dotIndex := RFind(p, ExtSep);
    if dotIndex > sepIndex && HasNonDot(p, sepIndex + 1, dotIndex) then
      assert p[dotIndex..][1..] == p[dotIndex + 1..];
      (p[..dotIndex], p[dotIndex..])
    else
      (p, "")
  }

  /** A '.' at index `i` of `name` with some other character before it. */
  predicate InnerDotAt(name: string, i: int) {
    0 < i < |name| && name[i] == ExtSep && HasNonDot(name, 0, i)
  }

  /** For a separator-free name, `splitext` removes an extension exactly when
      the name has a '.' preceded by some character other than '.'; so names
      such as "Makefile", ".bashrc" or "..." keep their whole text as stem. */
  lemma SplitExtCutsIffInnerDot(name: string)
    requires Sep !in name
    ensures SplitExt(name).1 != [] <==> exists i :: InnerDotAt(name, i)
  {
    var dotIndex := RFind(name, ExtSep);
    if SplitExt(name).1 != [] {
      assert InnerDotAt(name, dotIndex);
    }
    if exists i :: InnerDotAt(name, i) {
      var i :| InnerDotAt(name, i);
      var k :| 0 <= k < i && name[k] != ExtSep;
      assert HasNonDot(name, 0, dotIndex);
    }
  }

  /** The first half of the converter's `format_path`: strip every leading
      and trailing '"', then every leading and trailing "'". The result is
      reached through an intermediate text with no '"' left at either end. */
  function StripQuotes(path: string): (r: string)
    ensures Trims(path, {'"', '\''}, r)
    ensures exists m :: && Trims(path, {'"'}, m)
                        && (m == [] || (m[0] != '"' && m[|m| - 1] != '"'))
                        && Trims(m, {'\''}, r)
    ensures r == [] || (r[0] != '\'' && r[|r| - 1] != '\'')
  {
    var unquoted := Strip(path, '"');
    var r := Strip(unquoted, '\'');
    TrimsCompose(path, {'"'}, unquoted, {'\''}, r);
    assert {'"'} + {'\''} == {'"', '\''};
    r
  }

  /** The two strips run in a fixed order, so double quotes inside single
      quotes survive. */
  lemma StripQuotesKeepsInnerDoubleQuotes()
    ensures StripQuotes("'\"a\"'") == "\"a\""
  {
    NoOuterDoubleQuote();
    OuterSingleQuotes();
  }

  lemma NoOuterDoubleQuote()
    ensures Strip("'\"a\"'", '"') == "'\"a\"'"
  {
    var s := "'\"a\"'";
    assert TrimsAt(s, {'"'}, s, 0);
    StripUnique(s, '"', s);
  }

  lemma OuterSingleQuotes()
    ensures Strip("'\"a\"'", '\'') == "\"a\""
  {
    var s := "'\"a\"'";
    var r := "\"a\"";
    assert s[1..4] == r;
    assert TrimsAt(s, {'\''}, r, 1);
    StripUnique(s, '\'', r);
  }
}

=== FILE: seqs.dfy ===
/**
 Generic facts about mapping over a sequence: concatenating the images of
 the elements, and collecting them into a set. Both depend only on which
 elements the sequence holds, not on their order.
 */
module Seqs {

  /** Concatenation regrouped, kept apart so that the step costs nothing in
      the proofs that use it. */
  lemma Regroup<T>(a: seq<T>, b: seq<T>, z: seq<T>)
    ensures a + (b + z) == (a + b) + z
  {
  }

  /** The images of the elements of `xs`, concatenated in order. */
  function FlatMap<T, U>(xs: seq<T>, f: T -> seq<U>): (r: seq<U>)
    ensures forall k :: 0 <= k < |r| ==> exists x :: x in xs && r[k] in f(x)
    decreases |xs|
  {
    if xs == [] then []
    else
      var head := f(xs[0]);
      var rest := FlatMap(xs[1..], f);
      var r := head + rest;
      forall k | 0 <= k < |r|
        ensures exists x :: x in xs && r[k] in f(x)
      {
        if k < |head| {
          assert r[k] in f(xs[0]);
        } else {
          assert r[k] == rest[k - |head|];
          var x :| x in xs[1..] && rest[k - |head|] in f(x);
          assert x in xs;
        }
      }
      r
  }

  /** Every element's image occurs, in order, inside the flat map. */
  lemma {:induction false} FlatMapHasImage<T, U>(xs: seq<T>, f: T -> seq<U>, x: T, u: U)
    requires x in xs && u in f(x)
    ensures u in FlatMap(xs, f)
    decreases |xs|
  {
    if xs[0] != x {
      FlatMapHasImage(xs[1..], f, x, u);
    }
  }

  /** When no image is longer than one, the flat map is no longer than `xs`,
      and exactly as long when every image has one element. */
  lemma {:induction false} FlatMapLength<T, U>(xs: seq<T>, f: T -> seq<U>)
    requires forall x :: x in xs ==> |f(x)| <= 1
    ensures |FlatMap(xs, f)| <= |xs|
    ensures (forall x :: x in xs ==> |f(x)| == 1) ==> |FlatMap(xs, f)| == |xs|
    decreases |xs|
  {
    if xs != [] {
      assert xs[0] in xs;
      assert forall x :: x in xs[1..] ==> x in xs;
      FlatMapLength(xs[1..], f);
    }
  }

  lemma {:induction false} FlatMapAppend<T, U>(a: seq<T>, b: seq<T>, f: T -> seq<U>)
    ensures FlatMap(a + b, f) == FlatMap(a, f) + FlatMap(b, f)
    decreases |a|
  {
    if a == [] {
      assert a + b == b;
    } else {
      assert (a + b)[1..] == a[1..] + b;
      FlatMapAppend(a[1..], b, f);
    }
  }

  /** Removing the first element of `a` and an equal element of `b` keeps two
      permutations of each other. */
  lemma RemoveOne<T>(a: seq<T>, b: seq<T>, j: int)
    requires multiset(a) == multiset(b) && a != [] && 0 <= j < |b| && b[j] == a[0]
    ensures multiset(a[1..]) == multiset(b[..j] + b[j + 1..])
  {
    assert a == [a[0]] + a[1..];
    assert b == b[..j] + [b[j]] + b[j + 1..];
    assert multiset(a[1..]) == multiset(a) - multiset([a[0]]);
  }

  lemma SplitAt<T>(b: seq<T>, j: int)
    requires 0 <= j < |b|
    ensures b == b[..j] + ([b[j]] + b[j + 1..])
  {
  }

  /** Reordering `xs` reorders its flat map and nothing more. */
  lemma {:induction false} FlatMapPermutation<T, U>(a: seq<T>, b: seq<T>, f: T -> seq<U>)
    requires multiset(a) == multiset(b)
    ensures multiset(FlatMap(a, f)) == multiset(FlatMap(b, f))
    decreases |a|
  {
    if a == [] {
      assert |b| == |multiset(b)| == 0;
    } else {
      var x := a[0];
      assert x in multiset(b);
      var j :| 0 <= j < |b| && b[j] == x;
      var b' := b[..j] + b[j + 1..];
      RemoveOne(a, b, j);
      FlatMapPermutation(a[1..], b', f);
      var left, right := FlatMap(b[..j], f), FlatMap(b[j + 1..], f);
      FlatMapAppend(b[..j], b[j + 1..], f);
      SplitAt(b, j);
      FlatMapAppend(b[..j], [x] + b[j + 1..], f);
      assert ([x] + b[j + 1..])[1..] == b[j + 1..];
      assert FlatMap(b, f) == left + (f(x) + right);
      assert multiset(FlatMap(a, f)) == multiset(f(x)) + multiset(left + right);
    }
  }

  /** The union of the images of the elements of `xs`. */
  function Harvest<T, U(!new)>(xs: seq<T>, f: T -> set<U>): (r: set<U>)
    ensures forall u :: u in r <==> exists x :: x in xs && u in f(x)
    decreases |xs|
  {
    if xs == [] then {}
    else
      var rest := Harvest(xs[1..], f);
      var r := f(xs[0]) + rest;
      forall u
        ensures u in r <==> exists x :: x in xs && u in f(x)
      {
        if u in rest {
          var x :| x in xs[1..] && u in f(x);
          assert x in xs;
        }
        if exists x :: x in xs && u in f(x) {
          var x :| x in xs && u in f(x);
          if x != xs[0] {
            assert x in xs[1..];
          }
        }
      }
      r
  }

  /** The harvest depends only on which elements occur. */
  lemma HarvestPermutation<T, U(!new)>(a: seq<T>, b: seq<T>, f: T -> set<U>)
    requires multiset(a) == multiset(b)
    ensures Harvest(a, f) == Harvest(b, f)
  {
    assert forall x :: x in a <==> x in multiset(a);
    assert forall x :: x in b <==> x in multiset(b);
  }
}

=== FILE: text.dfy ===
/**
 The handful of Python `str` operations the converter relies on, over
 `seq<char>`: `endswith`, `rfind` of one character, `split` on one
 character and `strip` of one character.
 */
module Text {
  import opened Wrappers
  import opened Seqs

  /** `s.endswith(suffix)`: a plain, case-sensitive suffix test. The empty
      suffix ends every string. */
  predicate EndsWith(s: string, suffix: string) {
    |suffix| <= |s| && s[|s| - |suffix|..] == suffix
  }

  /** `s.rfind(c)`, with `None` standing for Python's -1. */
  function LastIndexOf(s: string, c: char): (r: Option<nat>)
    ensures r.None? <==> c !in s
    ensures r.Some? ==> r.value < |s| && s[r.value] == c && c !in s[r.value + 1..]
    decreases |s|
  {
    if |s| == 0 then None
    else if s[|s| - 1] == c then Some(|s| - 1)
    else
      var r := LastIndexOf(s[..|s| - 1], c);
      assert s == s[..|s| - 1] + [s[|s| - 1]];
      if r.Some? then
        assert s[r.value + 1..] == s[..|s| - 1][r.value + 1..] + [s[|s| - 1]];
        r
      else r
  }

  /** `s.find(c)`, with `None` standing for Python's -1. */
  function IndexOf(s: string, c: char): (r: Option<nat>)
    ensures r.None? <==> c !in s
    ensures r.Some? ==> r.value < |s| && s[r.value] == c && c !in s[..r.value]
    decreases |s|
  {
    if |s| == 0 then None
    else if s[0] == c then Some(0)
    else
      var r := IndexOf(s[1..], c);
      assert s == [s[0]] + s[1..];
      if r.Some? then
        assert s[..r.value + 1] == [s[0]] + s[1..][..r.value];
        Some(r.value + 1)
      else None
  }

  /** `s.rfind(c)` as Python returns it: the index, or -1 when absent. */
  function RFind(s: string, c: char): (i: int)
    ensures -1 <= i < |s|
    ensures i == -1 <==> c !in s
    ensures i >= 0 ==> s[i] == c && c !in s[i + 1..]
  {
    match LastIndexOf(s, c)
    case None => -1
    case Some(i) => i
  }

  /** An index holding `c` with no `c` after it is the one `LastIndexOf` finds. */
  lemma LastIndexOfUnique(s: string, c: char, i: nat)
    requires i < |s| && s[i] == c && c !in s[i + 1..]
    ensures LastIndexOf(s, c) == Some(i)
  {
  }

  /** Glues `parts` back together with `c` between neighbours: the inverse of
      `Split`. */
  function JoinWith(parts: seq<string>, c: char): string
  {
    if |parts| == 0 then ""
    else if |parts| == 1 then parts[0]
    else parts[0] + [c] + JoinWith(parts[1..], c)
  }

  /** `s.split(c)` for a one-character separator: every occurrence of `c`
      separates two parts, so consecutive separators give an empty part and
      the result is never empty. */
  function Split(s: string, c: char): (parts: seq<string>)
    ensures |parts| >= 1
    ensures JoinWith(parts, c) == s
    ensures forall k :: 0 <= k < |parts| ==> c !in parts[k]
    decreases |s|
  {
    if |s| == 0 then [""]
    else
      var rest := Split(s[1..], c);
      assert s == [s[0]] + s[1..];
      if s[0] == c then
        assert ([""] + rest)[1..] == rest;
        [""] + rest
      else
        var parts := [[s[0]] + rest[0]] + rest[1..];
        assert parts[1..] == rest[1..];
        assert forall k :: 1 <= k < |parts| ==> parts[k] == rest[k];
        parts
  }

  /** Peeling the last part off a join. */
  lemma {:induction false} JoinWithLast(parts: seq<string>, c: char)
    requires |parts| >= 2
    ensures JoinWith(parts, c) == JoinWith(parts[..|parts| - 1], c) + [c] + parts[|parts| - 1]
    decreases |parts|
  {
    var n := |parts|;
    var init := parts[..n - 1];
    var last := parts[n - 1];
    if n == 2 {
      assert parts[1..] == [last];
      assert init == [parts[0]];
    } else {
      var tail := parts[1..];
      JoinWithLast(tail, c);
      assert tail[..|tail| - 1] == init[1..];
      assert tail[|tail| - 1] == last;
      Regroup(parts[0] + [c], JoinWith(init[1..], c), [c] + last);
    }
  }

  /** `s.split(c)[-1]` is the text after the last `c`, which is all of `s`
      when `c` does not occur (`rfind` then gives -1). */
  lemma {:induction false} LastPartFollowsLastSeparator(s: string, c: char)
    ensures var parts := Split(s, c);
            parts[|parts| - 1] == s[RFind(s, c) + 1..]
  {
    var parts := Split(s, c);
    var last := parts[|parts| - 1];
    if |parts| == 1 {
      assert JoinWith(parts, c) == last;
      assert c !in s;
    } else {
      JoinWithLast(parts, c);
      var i := |s| - |last| - 1;
      assert s[i] == c;
      assert s[i + 1..] == last;
      LastIndexOfUnique(s, c, i);
    }
  }

  /** `s.lstrip(c)`: drops the longest prefix made of `c` only. */
  function TrimStart(s: string, c: char): (r: string)
    ensures |r| <= |s|
    ensures r == s[|s| - |r|..]
    ensures forall k :: 0 <= k < |s| - |r| ==> s[k] == c
    ensures r == [] || r[0] != c
    decreases |s|
  {
    if |s| > 0 && s[0] == c then TrimStart(s[1..], c) else s
  }

  /** `s.rstrip(c)`: drops the longest suffix made of `c` only. */
  function TrimEnd(s: string, c: char): (r: string)
    ensures |r| <= |s|
    ensures r == s[..|r|]
    ensures forall k :: |r| <= k < |s| ==> s[k] == c
    ensures r == [] || r[|r| - 1] != c
    decreases |s|
  {
    if |s| > 0 && s[|s| - 1] == c then TrimEnd(s[..|s| - 1], c) else s
  }

  /** A cut of `s` made only of `c` ends at index `j`: everything before it
      is `c`, and it stops at the first other character. */
  lemma TrimStartAt(s: string, c: char, j: nat)
    requires j <= |s|
    requires forall k :: 0 <= k < j ==> s[k] == c
    requires j == |s| || s[j] != c
    ensures TrimStart(s, c) == s[j..]
  {
  }

  /** Mirror image of `TrimStartAt` for the end of `s`. */
  lemma TrimEndAt(s: string, c: char, j: nat)
    requires j <= |s|
    requires forall k :: j <= k < |s| ==> s[k] == c
    requires j == 0 || s[j - 1] != c
    ensures TrimEnd(s, c) == s[..j]
  {
  }

  /** `r` sits at index `i` of `s` and only characters of `cs` lie around it. */
  ghost predicate TrimsAt(s: string, cs: set<char>, r: string, i: int) {
    && 0 <= i <= |s| - |r|
    && s[i..i + |r|] == r
    && (forall k :: 0 <= k < i ==> s[k] in cs)
    && (forall k :: i + |r| <= k < |s| ==> s[k] in cs)
  }

  /** `r` is `s` with some run of characters of `cs` cut from each end. */
  ghost predicate Trims(s: string, cs: set<char>, r: string) {
    exists i :: TrimsAt(s, cs, r, i)
  }

  /** Two successive cuts make one cut through the union of the two sets. */
  lemma TrimsCompose(s: string, a: set<char>, m: string, b: set<char>, r: string)
    requires Trims(s, a, m) && Trims(m, b, r)
    ensures Trims(s, a + b, r)
  {
    var i :| TrimsAt(s, a, m, i);
    var j :| TrimsAt(m, b, r, j);
    forall t | 0 <= t < |r|
      ensures s[i + j + t] == r[t]
    {
      assert r[t] == m[j..j + |r|][t] == m[j + t];
      assert m[j + t] == s[i..i + |m|][j + t];
    }
    assert s[i + j..i + j + |r|] == r;
    forall k | 0 <= k < i + j
      ensures s[k] in a + b
    {
      if k >= i {
        assert s[k] == m[k - i];
      }
    }
    forall k | i + j + |r| <= k < |s|
      ensures s[k] in a + b
    {
      if k < i + |m| {
        assert s[k] == m[k - i];
      }
    }
    assert TrimsAt(s, a + b, r, i + j);
  }

  /** `s.strip(c)`: drops every leading and every trailing `c`. The result is
      an infix of `s` cut only through runs of `c`, and neither starts nor
      ends with `c`. */
  function Strip(s: string, c: char): (r: string)
    ensures Trims(s, {c}, r)
    ensures r == [] || (r[0] != c && r[|r| - 1] != c)
  {
    var left := TrimStart(s, c);
    var r := TrimEnd(left, c);
    StripCuts(s, c);
    r
  }

  /** `TrimBothEnds` for the actual trims that `Strip` makes. */
  lemma StripCuts(s: string, c: char)
    ensures TrimsAt(s, {c}, TrimEnd(TrimStart(s, c), c), |s| - |TrimStart(s, c)|)
    ensures var r := TrimEnd(TrimStart(s, c), c);
            r == [] || (r[0] != c && r[|r| - 1] != c)
  {
    var left := TrimStart(s, c);
    var r := TrimEnd(left, c);
    assert |left| <= |s| && left == s[|s| - |left|..];
    assert forall k :: 0 <= k < |s| - |left| ==> s[k] == c;
    assert |r| <= |left| && r == left[..|r|];
    assert forall k :: |r| <= k < |left| ==> left[k] == c;
    TrimBothEnds(s, c, left, r);
  }

  /** Trimming the start and then the end cuts only runs of `c`, and leaves
      no `c` at either end: `left` is `s` after its whole leading run of `c`,
      and `r` is `left` before its whole trailing one. */
  lemma TrimBothEnds(s: string, c: char, left: string, r: string)
    requires |left| <= |s| && left == s[|s| - |left|..]
    requires forall k :: 0 <= k < |s| - |left| ==> s[k] == c
    requires |r| <= |left| && r == left[..|r|]
    requires forall k :: |r| <= k < |left| ==> left[k] == c
    requires left == [] || left[0] != c
    requires r == [] || r[|r| - 1] != c
    ensures TrimsAt(s, {c}, r, |s| - |left|)
    ensures r == [] || (r[0] != c && r[|r| - 1] != c)
  {
    if r != [] {
      assert r[0] == left[0];
    }
    var i := |s| - |left|;
    assert s[i..i + |r|] == r;
    forall k | i + |r| <= k < |s|
      ensures s[k] in {c}
    {
      assert s[k] == left[k - i];
    }
  }

  /** The non-empty case of `StripUnique`, for a known position `i`. */
  lemma StripFindsCutAt(s: string, c: char, r: string, i: int)
    requires TrimsAt(s, {c}, r, i)
    requires r != [] && r[0] != c && r[|r| - 1] != c
    ensures TrimEnd(TrimStart(s, c), c) == r
  {
    var left := s[i..];
    assert s[i] == r[0];
    TrimStartAt(s, c, i);
    assert left[..|r|] == s[i..i + |r|];
    forall k | |r| <= k < |left|
      ensures left[k] == c
    {
      assert left[k] == s[i + k];
    }
    assert left[|r| - 1] == r[|r| - 1];
    TrimEndAt(left, c, |r|);
  }

  /** Strip is the only such cut: any infix of `s` obtained by cutting runs
      of `c` off both ends, and which neither starts nor ends with `c`, is
      `Strip(s, c)`. */
  lemma StripUnique(s: string, c: char, r: string)
    requires Trims(s, {c}, r)
    requires r == [] || (r[0] != c && r[|r| - 1] != c)
    ensures r == Strip(s, c)
  {
    var i :| TrimsAt(s, {c}, r, i);
    if r == [] {
      TrimStartAt(s, c, |s|);
    } else {
      StripFindsCutAt(s, c, r, i);
    }
  }
}

=== FILE: wrappers.dfy ===
/** The optional-value datatype used for searches that may find nothing. */
module Wrappers {

  datatype Option<+T> = None | Some(value: T)
}
